=== FILE: README.md ===
# Real-time presence and relay of the MERN group chat, in Dafny

This project models the live layer of a multi-room group chat. It has
two sides:

- **The relay server** (`backend/socket.js`). For every connection it
  keeps a registry entry `{ user, room }` in the `connectedUsers` Map, and
  it relays room-scoped events. The events are the join's user list and
  notification, departures, chat messages and typing state.
- **The chat view** (`frontend/src/components/ChatArea.jsx`). Its socket
  listeners keep the message list, the connected-user list and the
  typing-user set. It also builds the typing indicator text, guards
  `sendMessage` against empty input, and announces typing once per burst
  of keystrokes.

Each server handler is a pure function from the state and the event to the
next state and the emitted events. The state is the registry plus the
transport's room membership. Each emitted event is a name, a payload and a
recipient set. The client's listeners and handlers are pure reducers over
the view state. Nothing runs; every property below is proved by Dafny.

Modules:

| module | file | models |
|---|---|---|
| `Js` | Js.dfy | `undefined`, `${…}` interpolation, `Array.prototype.join`, `String.prototype.trim` |
| `Wire` | Wire.dfy | the handshake user, messages, client requests, server payloads, event names |
| `Registry` | Registry.dfy | `connectedUsers`: a JavaScript `Map` with insertion order |
| `Transport` | Transport.dfy | room membership kept by `socket.join`, `socket.leave` and the transport |
| `Server` | Server.dfy | the handlers inside `io.on("connection")` |
| `Client` | Client.dfy | the listener reducers, typing indicator, send guard and typing flag of `ChatArea` |
| `EndToEnd` | EndToEnd.dfy | what a view sees of the server's events |

Several quirks of the code are modelled as written, not fixed:

- A join overwrites the registry entry but keeps the earlier transport
  room.
- A leave deletes the entry even when it names another room.
- A leave announces the user's `id`, but a disconnect announces `_id`.
- `stop typing` ignores the payload's username.
- The relay is emitted as `"message recieved"`.

Lemmas in `EndToEnd` spell out what these quirks cost:

- No view ever appends a relayed message, because it listens for
  `"message received"`. This holds for every server state and every event
  sequence.
- The view's `"user joined"` listener is never triggered.
- For a user object without an `id` property, the leave notice removes
  nobody from the view's list. Socket.IO sends event arguments as JSON, so
  the `undefined` id arrives as `null`, which matches no user. The same
  holds for a disconnect notice of a user without `_id`.
- A relayed message never goes back to its sender, and the sender's own
  list is not updated when the message is posted.
- When the handshake name differs from the name the view sent with
  `"typing"`, that name stays shown after the stop.

Three more behaviours of the code:

- Registry entries are created on join; connecting alone creates none.
- A leave deletes the whole entry rather than clearing its room.
- A connection may stay in several transport rooms, while the registry
  records only the last room joined (`Server.JoinSecondRoomKeepsFirst`).

## Model

| member | source | states |
|---|---|---|
| Registry.Get | backend/socket.js:37 | `connectedUsers.has`/`get`: there is an entry exactly for the keys in the key order, and it is the stored one |
| Registry.Put | backend/socket.js:14 | `Map.set`: the key now maps to the new entry, other keys are unchanged, an existing key keeps its position, a new key goes last |
| Registry.Remove | backend/socket.js:39 | `Map.delete`: the key has no entry afterwards, other keys are unchanged, a present key is taken out of the key order in place with the others keeping their order, deleting an absent key changes nothing |
| Registry.WithoutDeletesInPlace | backend/socket.js:39 | along distinct keys, removing a key leaves the keys before and after it in place |
| Registry.UsersInLists | backend/socket.js:16-18 | a user is in the `"users in room"` listing for `g` exactly when some connection's entry pairs that user with `g` |
| Registry.UsersAlongAppend | backend/socket.js:16-18 | the listing follows Map insertion order: it distributes over concatenation of the key order |
| Registry.RoomKeysCons | backend/socket.js:16-18 | along distinct keys, the room's keys are the tail's plus the head when its entry names the room, and the head is not among the tail's |
| Registry.UsersIn | backend/socket.js:16-18 | the listing holds one user per connection whose entry names the room |
| Registry.PutThenRemove | backend/socket.js:14 | setting a fresh key and deleting it restores the Map, order included |
| Transport.Members | backend/socket.js:20 | `io.in(g)` reaches exactly the connections whose room set holds `g` |
| Transport.Others | backend/socket.js:22 | `socket.to(g)` reaches exactly the room's connections other than the sender |
| Transport.Join | backend/socket.js:12 | `socket.join(g)` adds `g` to the connection's rooms and no other connection's rooms change |
| Transport.Leave | backend/socket.js:36 | `socket.leave(g)` drops `g` from the connection's rooms and no other connection's rooms change |
| Transport.Drop | backend/socket.js:58 | a closed connection is in no room afterwards; other connections are untouched |
| Transport.JoinMembers | backend/socket.js:12 | joining adds exactly the joiner to that room and changes no other room |
| Transport.LeaveMembers | backend/socket.js:36 | leaving takes exactly the leaver out of the room |
| Transport.OthersCount | backend/socket.js:22-26 | a sender-excluding broadcast reaches one fewer connection than the room when the sender is in it |
| Server.OnJoinRoom | backend/socket.js:10-27 | after a join the entry is (handshake user, `g`) and other entries are unchanged; the transport rooms gain `g` and keep earlier rooms; `"users in room"` carries the registry's listing for `g`, includes the joiner and goes to the whole room including the joiner; a `USER_JOINED` notification "<username> has joined" goes to the room minus the joiner, one recipient fewer; the key order is fixed by `Server.JoinKeepsKeyOrder` |
| Server.JoinKeepsKeyOrder | backend/socket.js:14 | a join is a `Map.set`: a connection with an entry keeps its place in the key order whatever room it named, and a new connection goes last |
| Server.JoinMembership | backend/socket.js:12 | after a join the room's members are those before plus the joiner |
| Server.OnLeaveRoom | backend/socket.js:33-42 | `g` always leaves the connection's transport rooms; an existing entry is deleted whatever room it names, the key order losing only that key in place, and one `"user left"` with `user?.id` goes to `g` minus the leaver; with no entry nothing is emitted and the registry is unchanged |
| Server.OnNewMessage | backend/socket.js:48-51 | state unchanged; the unchanged payload goes as `"message recieved"` to the message's `groupId` room minus the sender |
| Server.OnTyping | backend/socket.js:73-76 | state unchanged; the payload's username goes as `"user typing"` to the room minus the sender |
| Server.OnStopTyping | backend/socket.js:77-80 | state unchanged; `"user stop typing"` carries the handshake user's username whatever username the payload holds |
| Server.OnDisconnect | backend/socket.js:58-67 | with an entry, exactly one `"user left"` carrying `user?._id` goes to the stored room minus the leaver, and the entry is deleted, the key order losing only that key in place; with none, nothing is emitted; other entries are untouched |
| Server.HandlePreservesConsistent | backend/socket.js:10-80 | every handler keeps each registry entry's room among its connection's transport rooms |
| Server.Run | backend/socket.js:6-82 | handlers run one at a time in arrival order: no deliveries leave the state as it was and emit nothing, and each delivery emits at most two events |
| Server.RunFromInitialConsistent | backend/socket.js:4-6 | starting from the empty registry and no rooms, every state reached by any event sequence keeps each entry's room among its connection's rooms |
| Server.RunPreservesConsistent | backend/socket.js:6-82 | the same holds after any sequence of events from any connections |
| Server.ListedConnectionsAreMembers | backend/socket.js:16-20 | in a consistent state everyone listed for a room also receives the room's broadcasts |
| Server.JoinListsOnePerConnection | backend/socket.js:14-18 | after a join the room's listing has one user per connection in it, the joiner's connection among them |
| Server.FirstJoinAppends | backend/socket.js:14-18 | a connection's first join appends its user at the end of the room's listing, the others in their old order |
| Server.LeaveRemovesFromRoom | backend/socket.js:36-39 | after a leave the connection is neither listed for the room nor reached by its broadcasts |
| Server.JoinSecondRoomKeepsFirst | backend/socket.js:12-14 | joining a second room keeps the first transport room but the registry names only the second |
| Server.DisconnectAfterJoin | backend/socket.js:58-67 | after a join, a disconnect announces the departure once to the rest of the room; a second disconnect is a no-op |
| Server.DisconnectIdempotent | backend/socket.js:59 | a second disconnect emits nothing and changes nothing |
| Server.LeaveOtherRoomSilencesDisconnect | backend/socket.js:37-41 | leaving a room other than the recorded one deletes the entry, so a later disconnect tells the still-joined room nothing |
| Server.JoinThenLeaveRestoresRegistry | backend/socket.js:14 | a join then a leave of the same room restores the registry of a connection that had no entry |
| Server.Handle | backend/socket.js:10-80 | the handler table: one event emits at most two events, each named by one of the six server names |
| Server.RunThree | backend/socket.js:6-82 | handlers run one at a time: three events emit their handlers' events in arrival order, each seeing the state the previous one left |
| Server.RunEmitsServerNames | backend/socket.js:20-79 | every event the server emits carries one of six names |
| Js.JoinSnoc | frontend/src/components/ChatArea.jsx:196 | `join(", ")` of a longer list is the shorter join, the separator, then the last piece |
| Js.TrimStart | frontend/src/components/ChatArea.jsx:125 | removes exactly a leading run of JavaScript whitespace, keeping the rest |
| Js.TrimEnd | frontend/src/components/ChatArea.jsx:125 | removes exactly a trailing run of JavaScript whitespace, keeping the rest |
| Js.Trim | frontend/src/components/ChatArea.jsx:125 | `trim()` yields "" exactly when every character is whitespace or a line terminator; otherwise it begins and ends with a kept character |
| Js.Template | backend/socket.js:24 | `${v}` inserts a string as itself and `undefined` as "undefined", which is indistinguishable from the string "undefined" |
| Js.JoinPiece | frontend/src/components/ChatArea.jsx:196 | `join` renders a string element as itself and `undefined` as "", indistinguishable from an empty string |
| Js.ToJson | backend/socket.js:63 | a bare argument crosses the wire as JSON: `undefined` becomes `null`, a string stays itself; the received value is strictly equal to exactly the string it came from, and to nothing when it came from `undefined` |
| Js.StrictEquals | frontend/src/components/ChatArea.jsx:60 | `===` between a string-or-`undefined` and a string-or-`null`: `undefined` and `null` equal nothing, two strings are equal when they are the same string |
| Js.Join | frontend/src/components/ChatArea.jsx:196 | `join(sep)` of no pieces is "" and of one piece is that piece; with more, the first piece and the separator open the text |
| Client.OnMessageReceived | frontend/src/components/ChatArea.jsx:43-47 | the list only grows at the end, by one message, and changes exactly when the message's `group` is the open group |
| Client.OfGroupSelects | frontend/src/components/ChatArea.jsx:43-47 | a message is among the group's messages of a stream exactly when it is in the stream and its `group` is the open group |
| Client.ReceiveAllAppendsGroupMessages | frontend/src/components/ChatArea.jsx:43-47 | over any stream, the list grows by exactly the open group's messages in arrival order |
| Client.OnUserLeft | frontend/src/components/ChatArea.jsx:58-62 | keeps exactly the entries whose `_id` is not strictly equal to the received id, which is `null` or a string |
| Client.UserLeftNullRemovesNobody | frontend/src/components/ChatArea.jsx:58-62 | a `null` id removes nobody, not even users without `_id` |
| Client.UserLeftKeepsOrder | frontend/src/components/ChatArea.jsx:58-62 | the filter distributes over concatenation, so kept entries stay in order |
| Client.UserLeftUnmatchedIsIdentity | frontend/src/components/ChatArea.jsx:58-62 | a list with no entry carrying the id is unchanged |
| Client.UserLeftIdempotent | frontend/src/components/ChatArea.jsx:58-62 | a repeated removal removes nothing more |
| Client.AddTypist | frontend/src/components/ChatArea.jsx:76-78 | Set add: membership gains the name; an absent name goes last; a present one changes nothing; no duplicates arise |
| Client.RemoveTypist | frontend/src/components/ChatArea.jsx:80-86 | Set delete: membership loses exactly the name, no duplicates arise |
| Client.RemoveAbsentTypist | frontend/src/components/ChatArea.jsx:80-86 | deleting an absent name changes nothing |
| Client.AddThenRemoveTypist | frontend/src/components/ChatArea.jsx:76-86 | adding an absent name and then deleting it restores the set |
| Client.OthersTyping | frontend/src/components/ChatArea.jsx:189-191 | keeps exactly the names other than the current user's |
| Client.TypingIndicator | frontend/src/components/ChatArea.jsx:188-196 | renders nothing exactly when every typing name is the current user's |
| Client.IndicatorAfterAdd | frontend/src/components/ChatArea.jsx:192-196 | a new typist alone reads "<name> is typing..."; otherwise it is appended after ", " to the shown names, followed by " are typing..." |
| Client.IndicatorExcludesMe | frontend/src/components/ChatArea.jsx:189-191 | the current user's own name never changes the indicator |
| Client.Receive | frontend/src/components/ChatArea.jsx:43-86 | `"message received"` applies the message reducer; `"users in room"` replaces the user list; `"user joined"` appends one user; `"user left"` filters by the id as received, `undefined` arriving as `null`; `"user typing"` and `"user stop typing"` add to and delete from the typing set; every other list and the input state are untouched |
| Client.SendMessage | frontend/src/components/ChatArea.jsx:124-135 | sends nothing exactly when the draft is all whitespace; otherwise posts the untrimmed draft to the selected group |
| Client.OnPostResult | frontend/src/components/ChatArea.jsx:140-155 | a stored message is emitted as `"new message"` tagged with the selected group and the draft clears; a failure changes nothing; the sender's list is never touched |
| Client.HandleTyping | frontend/src/components/ChatArea.jsx:158-179 | stores the draft and schedules the timer; emits `"typing"` exactly when not typing and a group is selected; sets the flag exactly then or when already set; the message, connected-user and typing lists are unchanged |
| Client.TimerFires | frontend/src/components/ChatArea.jsx:170-178 | clears the flag and the timer; emits `"stop typing"` when a group is selected; the draft and the message, connected-user and typing lists are unchanged; with no timer pending nothing happens |
| Client.BurstSendsTypingOnce | frontend/src/components/ChatArea.jsx:160-166 | a burst of keystrokes sends at most one `"typing"`: exactly one when it starts while not typing with a group selected |
| Client.TypingAgainAfterTimer | frontend/src/components/ChatArea.jsx:170-178 | once the timer has fired, the next keystroke announces typing again |
| EndToEnd.ListenedNamesNeverSent | frontend/src/components/ChatArea.jsx:43-56 | the view listens for `"message received"` and `"user joined"`, which are not among the server's names |
| EndToEnd.Deliver | frontend/src/components/ChatArea.jsx:43-86 | the events addressed to one connection reach its listeners in order; the input state is never touched, and a view addressed by none of the events is left as it was |
| EndToEnd.DeliverKeepsMessages | frontend/src/components/ChatArea.jsx:43-47 | events carrying only server names never change a view's message list |
| EndToEnd.RelayNeverReachesMessageList | backend/socket.js:50 | for every server state and event sequence, nothing the server sends changes any view's message list |
| EndToEnd.LeaveNoticeRemovesNobody | backend/socket.js:40 | the leave notice carries `id`; for a user without `id` it arrives as `null` and removes nobody from any view |
| EndToEnd.DisconnectNoticeRemovesLeaver | backend/socket.js:63 | the disconnect notice carries `_id`; for a user with `_id` it removes the leaver from the view's list |
| EndToEnd.DisconnectWithoutIdRemovesNobody | backend/socket.js:63 | for a user without `_id` the disconnect notice arrives as `null` and removes nobody |
| EndToEnd.TypingReachesRoom | frontend/src/components/ChatArea.jsx:160-166 | a first keystroke, relayed, puts the typist's name in every other view of the room and makes its indicator show |
| EndToEnd.StopTypingLeavesMismatchedName | backend/socket.js:77-79 | when the handshake name differs from the sent name, typing then stop leaves the sent name shown in other views |
| EndToEnd.PostedMessageSkipsSender | frontend/src/components/ChatArea.jsx:140-147 | a posted message is relayed to its room minus the sender, and the sender's own list stays as it was whatever group its view has open, although the comment promises a broadcast back to everyone |
| EndToEnd.MessageRunUnfolds | backend/socket.js:6-82 | the three-event run emits the two joins' events and then the message's, in order |
| EndToEnd.MessageScenario | backend/socket.js:48-51 | two joins then a message: the relay is addressed to the second connection and not the sender, yet the second view's list is unchanged |
| EndToEnd.JoinScenario | backend/socket.js:20-26 | the first joiner is notified of the second but neither of itself; the second listing goes to both |
| EndToEnd.JoinScenarioListing | backend/socket.js:14-20 | after two first joins of a room, its listing is both users in join order |
| EndToEnd.RejoinScenarioListing | backend/socket.js:14-20 | `a` joins one room, `b` joins a second, then `a` joins the second: `a` keeps its earlier place, so the listing names `a`'s user before `b`'s |

## Left out

- Socket.IO internals are not modelled, because they belong to the library. This covers delivery, retries, failures, ordering across connections and each socket's private room named by its id. Rooms are plain sets and emits are records.
- Transport.Drop: a closing connection leaving all its rooms is the transport's own behaviour and is not written in the handlers. It is modelled so that closed connections stop receiving broadcasts.
- Request payloads are assumed to have the shape the view sends. A missing or `null` payload makes the `"typing"` and `"stop typing"` handlers throw while destructuring it (backend/socket.js:73, 77), and the `"new message"` handler throw reading `message.groupId` (backend/socket.js:50). These exceptions are not modelled.
- The `console.log` call (backend/socket.js:34) is left out: it is logging.
- Connection establishment is not a state change, because the handlers create nothing on connect. The handshake user is the `user` field of `Server.Socket`.
- Message payloads are reduced to `content`, `groupId` and `group`. The other persisted fields travel untouched and play no part in any decision.
- Mounting and unmounting the view's effect are left out (frontend/src/components/ChatArea.jsx:37-41, 88-99). They emit `"join room"` and `"leave room"` and add and remove listeners. The server side of that pair is `Server.JoinThenLeaveRestoresRegistry`.
- The `"notification"` listener is left out (frontend/src/components/ChatArea.jsx:64-74): it only shows a toast.
- `fetchMessages` is left out (frontend/src/components/ChatArea.jsx:102-122): it is HTTP I/O.
- Socket.IO's JSON encoding is modelled only where it shows: a bare `undefined` argument, the id of `"user left"`, arrives as `null`. `undefined` elements of the `"users in room"` array also arrive as `null`; the model keeps them as `undefined`, because `user?._id` reads the same for both. User fields that are `null` rather than absent are not modelled.
- The HTTP POST in `sendMessage` is left out, because it is network I/O. Its outcome is the `stored` input of `Client.OnPostResult`.
- The 2-second `setTimeout`/`clearTimeout` debounce is modelled only as the explicit `Client.TimerFires` event, because wall-clock timing is out of scope. Re-arming the timer keeps `timerPending` true.
- Client.HandleTyping: React updates state asynchronously, and `isTyping` is read from the last render. The model assumes every keystroke sees the previous keystroke's flag update, so it does not cover two keystrokes landing within one render.
- Rendering, scrolling, `formatTime` and the Chakra UI markup are left out: they are presentation.
- `backend/server.js`, `backend/routes/groupRoute.js` and `backend/middleware/authMiddleware.js` are left out. They are wiring, database CRUD and token checks that call into libraries.
- Js.TrimStart, Js.TrimEnd: characters are Unicode scalar values, not UTF-16 code units, so lone surrogates cannot be expressed. Whitespace is classified by code point.

=== FILE: Client.dfy ===
/** The chat view of frontend/src/components/ChatArea.jsx as a set of
    reducers: the socket listeners that update the message list, the
    connected-user list and the typing-user set; the typing indicator
    text; the empty-input guard of `sendMessage`; and the `isTyping` flag
    of `handleTyping` with its stop timer. */
module Client {
  import opened Js
  import opened Wire

  /** The component state the listeners and input handlers change.
      `timerPending` says whether a stop-typing timer is scheduled. */
  datatype View = View(
    messages: seq<Message>,
    connectedUsers: seq<Option<User>>,
    typingUsers: seq<Option<string>>,
    isTyping: bool,
    timerPending: bool,
    draft: string)

  /** What the component reads but never changes: the selected group's
      `_id` (undefined when no group is selected) and the username of the
      user stored at login. */
  datatype Context = Context(selectedGroup: Option<string>, me: Option<string>)

  /** A handler's outcome: the next view and the requests sent to the server. */
  datatype Reaction = Reaction(view: View, out: seq<Request>)

  // ---- "message received" ----

  /** Append a received message when it belongs to the open group. */
  function OnMessageReceived(msgs: seq<Message>, groupId: string, m: Message): (r: seq<Message>)
    ensures msgs <= r && |r| <= |msgs| + 1
    ensures r != msgs <==> m.group == Some(groupId)
  {
    if m.group == Some(groupId) then msgs + [m] else msgs
  }

  /** The messages of `ms` that belong to group `groupId`, in order. */
  function OfGroup(ms: seq<Message>, groupId: string): seq<Message>
    decreases |ms|
  {
    if |ms| == 0 then []
    else (if ms[0].group == Some(groupId) then [ms[0]] else []) + OfGroup(ms[1..], groupId)
  }

  /** The filter keeps exactly the open group's messages. */
  lemma {:induction false} OfGroupSelects(ms: seq<Message>, groupId: string, m: Message)
    ensures m in OfGroup(ms, groupId) <==> m in ms && m.group == Some(groupId)
    decreases |ms|
  {
    if |ms| > 0 {
      OfGroupSelects(ms[1..], groupId, m);
      assert m in ms <==> m == ms[0] || m in ms[1..];
    }
  }

  /** A stream of received messages, one listener call each. */
  function ReceiveAll(msgs: seq<Message>, groupId: string, ms: seq<Message>): seq<Message>
    decreases |ms|
  {
    if |ms| == 0 then msgs
    else ReceiveAll(OnMessageReceived(msgs, groupId, ms[0]), groupId, ms[1..])
  }

  /** Whatever arrives, the list grows by exactly the open group's
      messages, in arrival order; earlier messages stay in front. */
  lemma {:induction false} ReceiveAllAppendsGroupMessages(msgs: seq<Message>, groupId: string, ms: seq<Message>)
    ensures ReceiveAll(msgs, groupId, ms) == msgs + OfGroup(ms, groupId)
    decreases |ms|
  {
    if |ms| > 0 {
      var m, rest := ms[0], ms[1..];
      var next := OnMessageReceived(msgs, groupId, m);
      assert ReceiveAll(msgs, groupId, ms) == ReceiveAll(next, groupId, rest);
      ReceiveAllAppendsGroupMessages(next, groupId, rest);
      var here := if m.group == Some(groupId) then [m] else [];
      assert OfGroup(ms, groupId) == here + OfGroup(rest, groupId);
      assert next == msgs + here;
      assert (msgs + here) + OfGroup(rest, groupId) == msgs + (here + OfGroup(rest, groupId));
    } else {
      assert msgs + [] == msgs;
    }
  }

  // ---- "user left" ----

  /** `prev.filter(user => user?._id !== userId)`, where `userId` is the
      argument as received: `null` or a string. */
  function OnUserLeft(users: seq<Option<User>>, userId: Nullable): (r: seq<Option<User>>)
    ensures forall u :: u in r <==> u in users && !StrictEquals(DbIdOf(u), userId)
    ensures |r| <= |users|
    decreases |users|
  {
    if |users| == 0 then []
    else
      assert forall u :: u in users <==> u == users[0] || u in users[1..];
      (if !StrictEquals(DbIdOf(users[0]), userId) then [users[0]] else []) + OnUserLeft(users[1..], userId)
  }

  /** The filter works entry by entry, so the kept entries stay in order. */
  lemma {:induction false} UserLeftKeepsOrder(a: seq<Option<User>>, b: seq<Option<User>>, userId: Nullable)
    ensures OnUserLeft(a + b, userId) == OnUserLeft(a, userId) + OnUserLeft(b, userId)
    decreases |a|
  {
    if |a| > 0 {
      UserLeftKeepsOrder(a[1..], b, userId);
      UserLeftKeepsOrderStep(a, b, userId);
    } else {
      assert a + b == b;
    }
  }

  /** The step of `UserLeftKeepsOrder`: distributing over `a[1..] + b`
      distributes over `a + b`. */
  lemma UserLeftKeepsOrderStep(a: seq<Option<User>>, b: seq<Option<User>>, userId: Nullable)
    requires |a| > 0
    requires OnUserLeft(a[1..] + b, userId) == OnUserLeft(a[1..], userId) + OnUserLeft(b, userId)
    ensures OnUserLeft(a + b, userId) == OnUserLeft(a, userId) + OnUserLeft(b, userId)
  {
    var here := if !StrictEquals(DbIdOf(a[0]), userId) then [a[0]] else [];
    ConcatHead(a, b);
    UserLeftHead(a + b, userId);
    UserLeftHead(a, userId);
    ConcatAssoc(here, OnUserLeft(a[1..], userId), OnUserLeft(b, userId));
  }

  /** Splitting the head off a concatenation splits it off the first part. */
  lemma ConcatHead<T>(a: seq<T>, b: seq<T>)
    requires |a| > 0
    ensures (a + b)[0] == a[0] && (a + b)[1..] == a[1..] + b
  {
  }

  /** Concatenation is associative. */
  lemma ConcatAssoc<T>(x: seq<T>, y: seq<T>, z: seq<T>)
    ensures x + (y + z) == (x + y) + z
  {
  }

  /** One step of the filter: the head is kept unless its id matches. */
  lemma UserLeftHead(us: seq<Option<User>>, userId: Nullable)
    requires |us| > 0
    ensures OnUserLeft(us, userId)
         == (if !StrictEquals(DbIdOf(us[0]), userId) then [us[0]] else []) + OnUserLeft(us[1..], userId)
  {
  }

  /** A list with no entry carrying the id is left as it is. */
  lemma {:induction false} UserLeftUnmatchedIsIdentity(users: seq<Option<User>>, userId: Nullable)
    requires forall u :: u in users ==> !StrictEquals(DbIdOf(u), userId)
    ensures OnUserLeft(users, userId) == users
    decreases |users|
  {
    if |users| > 0 {
      assert forall u :: u in users[1..] ==> u in users;
      UserLeftUnmatchedIsIdentity(users[1..], userId);
      assert users == [users[0]] + users[1..];
    }
  }

  /** Removing by id twice removes nothing more. */
  lemma UserLeftIdempotent(users: seq<Option<User>>, userId: Nullable)
    ensures OnUserLeft(OnUserLeft(users, userId), userId) == OnUserLeft(users, userId)
  {
    UserLeftUnmatchedIsIdentity(OnUserLeft(users, userId), userId);
  }

  /** A `null` id matches no user, not even one without `_id`: the list is
      left as it is. */
  lemma UserLeftNullRemovesNobody(users: seq<Option<User>>)
    ensures OnUserLeft(users, Null) == users
  {
    UserLeftUnmatchedIsIdentity(users, Null);
  }

  // ---- "user typing" / "user stop typing" ----

  /** `new Set(prev).add(name)`: a present name keeps its place, a new one
      goes last. */
  function AddTypist(ts: seq<Option<string>>, name: Option<string>): (r: seq<Option<string>>)
    ensures forall x :: x in r <==> x in ts || x == name
    ensures Distinct(ts) ==> Distinct(r)
    ensures name in ts ==> r == ts
    ensures name !in ts ==> r == ts + [name]
  {
    if name in ts then ts else ts + [name]
  }

  /** `new Set(prev).delete(name)`. */
  function RemoveTypist(ts: seq<Option<string>>, name: Option<string>): (r: seq<Option<string>>)
    ensures forall x :: x in r <==> x in ts && x != name
    ensures Distinct(ts) ==> Distinct(r)
    ensures |r| <= |ts|
    decreases |ts|
  {
    if |ts| == 0 then []
    else
      var rest := RemoveTypist(ts[1..], name);
      assert forall x :: x in ts <==> x == ts[0] || x in ts[1..];
      assert Distinct(ts) ==> Distinct(ts[1..]) && ts[0] !in ts[1..] by {
        if Distinct(ts) {
          forall i, j | 0 <= i < j < |ts[1..]| ensures ts[1..][i] != ts[1..][j] {
            assert ts[1..][i] == ts[i + 1] && ts[1..][j] == ts[j + 1];
          }
        }
      }
      if ts[0] == name then rest
      else
        var r := [ts[0]] + rest;
        assert Distinct(ts) ==> Distinct(r) by {
          if Distinct(ts) {
            forall i, j | 0 <= i < j < |r| ensures r[i] != r[j] {
              assert r[j] == rest[j - 1];
              if i > 0 { assert r[i] == rest[i - 1]; }
            }
          }
        }
        r
  }

  lemma {:induction false} RemoveAbsentTypist(ts: seq<Option<string>>, name: Option<string>)
    requires name !in ts
    ensures RemoveTypist(ts, name) == ts
    decreases |ts|
  {
    if |ts| > 0 {
      assert name !in ts[1..];
      RemoveAbsentTypist(ts[1..], name);
      assert ts == [ts[0]] + ts[1..];
    }
  }

  lemma {:induction false} RemoveTypistAppend(a: seq<Option<string>>, b: seq<Option<string>>, name: Option<string>)
    ensures RemoveTypist(a + b, name) == RemoveTypist(a, name) + RemoveTypist(b, name)
    decreases |a|
  {
    if |a| > 0 {
      assert (a + b)[1..] == a[1..] + b;
      RemoveTypistAppend(a[1..], b, name);
    } else {
      assert a + b == b;
    }
  }

  /** A name that starts and then stops typing leaves the set as it was. */
  lemma AddThenRemoveTypist(ts: seq<Option<string>>, name: Option<string>)
    requires name !in ts
    ensures RemoveTypist(AddTypist(ts, name), name) == ts
  {
    RemoveTypistAppend(ts, [name], name);
    RemoveAbsentTypist(ts, name);
    assert RemoveTypist([name], name) == [];
  }

  // ---- the typing indicator ----

  /** `Array.from(typingUsers).filter(username => username !== currentUser.username)`. */
  function OthersTyping(ts: seq<Option<string>>, me: Option<string>): (r: seq<Option<string>>)
    ensures forall x :: x in r <==> x in ts && x != me
    ensures |r| <= |ts|
    decreases |ts|
  {
    if |ts| == 0 then []
    else
      assert forall x :: x in ts <==> x == ts[0] || x in ts[1..];
      (if ts[0] != me then [ts[0]] else []) + OthersTyping(ts[1..], me)
  }

  lemma {:induction false} OthersTypingAppend(a: seq<Option<string>>, b: seq<Option<string>>, me: Option<string>)
    ensures OthersTyping(a + b, me) == OthersTyping(a, me) + OthersTyping(b, me)
    decreases |a|
  {
    if |a| > 0 {
      assert (a + b)[1..] == a[1..] + b;
      OthersTypingAppend(a[1..], b, me);
    } else {
      assert a + b == b;
    }
  }

  /** `renderTypingIndicator`'s text; `None` renders nothing. */
  function TypingIndicator(ts: seq<Option<string>>, me: Option<string>): (r: Option<string>)
    ensures r.None? <==> forall i :: 0 <= i < |ts| ==> ts[i] == me
  {
    var others := OthersTyping(ts, me);
    assert (exists i :: 0 <= i < |ts| && ts[i] != me) ==> |others| > 0 by {
      if i :| 0 <= i < |ts| && ts[i] != me {
        assert ts[i] in others;
      }
    }
    assert |others| > 0 ==> exists i :: 0 <= i < |ts| && ts[i] != me by {
      if |others| > 0 {
        assert others[0] in others;
        var i :| 0 <= i < |ts| && ts[i] == others[0];
      }
    }
    if |others| == 0 then None
    else if |others| == 1 then Some(Template(others[0]) + " is typing...")
    else Some(Join(others, ", ") + " are typing...")
  }

  /** A new name typing shows up in the indicator: alone it reads
      "<name> is typing...", otherwise it is appended, after ", ", to the
      names already shown, followed by " are typing...". */
  lemma IndicatorAfterAdd(ts: seq<Option<string>>, me: Option<string>, name: Option<string>)
    requires name !in ts && name != me
    ensures var before := OthersTyping(ts, me);
      var after := TypingIndicator(AddTypist(ts, name), me);
      && (|before| == 0 ==> after == Some(Template(name) + " is typing..."))
      && (|before| > 0 ==> after == Some(Join(before, ", ") + ", " + JoinPiece(name) + " are typing..."))
  {
    var before := OthersTyping(ts, me);
    OthersTypingAppend(ts, [name], me);
    assert OthersTyping([name], me) == [name];
    assert OthersTyping(AddTypist(ts, name), me) == before + [name];
    if |before| > 0 {
      JoinSnoc(before, name, ", ");
    }
  }

  /** The current user's own name never shows: adding it to the set
      leaves the indicator as it was. */
  lemma IndicatorExcludesMe(ts: seq<Option<string>>, me: Option<string>)
    ensures TypingIndicator(AddTypist(ts, me), me) == TypingIndicator(ts, me)
  {
    if me !in ts {
      OthersTypingAppend(ts, [me], me);
      assert OthersTyping([me], me) == [];
      assert OthersTyping(ts + [me], me) == OthersTyping(ts, me);
    }
  }

  // ---- socket listeners ----

  /** The listeners registered while group `groupId` is open, dispatched
      on the event name. Events without a listener change nothing; the
      `"notification"` listener only shows a toast. A payload is the
      server's argument; the one place where its JSON encoding shows is the
      bare id of `"user left"`, where `undefined` arrives as `null`. */
  function Receive(v: View, groupId: string, name: string, p: Payload): (r: View)
    ensures r.isTyping == v.isTyping && r.timerPending == v.timerPending && r.draft == v.draft
    ensures name != MessageReceivedEvent ==> r.messages == v.messages
    ensures name !in {UsersInRoomEvent, UserJoinedEvent, UserLeftEvent} ==> r.connectedUsers == v.connectedUsers
    ensures name !in {UserTypingEvent, UserStopTypingEvent} ==> r.typingUsers == v.typingUsers
    ensures name == MessageReceivedEvent && p.Relayed? ==> r.messages == OnMessageReceived(v.messages, groupId, p.message)
    ensures name == UsersInRoomEvent && p.Users? ==> r.connectedUsers == p.users
    ensures name == UserJoinedEvent && p.OneUser? ==> r.connectedUsers == v.connectedUsers + [p.user]
    ensures name == UserLeftEvent && p.UserId? ==> r.connectedUsers == OnUserLeft(v.connectedUsers, ToJson(p.userId))
    ensures name == UserTypingEvent && p.Typist? ==> r.typingUsers == AddTypist(v.typingUsers, p.username)
    ensures name == UserStopTypingEvent && p.Typist? ==> r.typingUsers == RemoveTypist(v.typingUsers, p.username)
  {
    if name == MessageReceivedEvent && p.Relayed? then
      v.(messages := OnMessageReceived(v.messages, groupId, p.message))
    else if name == UsersInRoomEvent && p.Users? then
      v.(connectedUsers := p.users)
    else if name == UserJoinedEvent && p.OneUser? then
      v.(connectedUsers := v.connectedUsers + [p.user])
    else if name == UserLeftEvent && p.UserId? then
      v.(connectedUsers := OnUserLeft(v.connectedUsers, ToJson(p.userId)))
    else if name == UserTypingEvent && p.Typist? then
      v.(typingUsers := AddTypist(v.typingUsers, p.username))
    else if name == UserStopTypingEvent && p.Typist? then
      v.(typingUsers := RemoveTypist(v.typingUsers, p.username))
    else v
  }

  // ---- sending ----

  datatype SendAction = Skip | Post(content: string, groupId: Option<string>)

  /** `sendMessage` up to the HTTP request: a draft that is empty after
      trimming sends nothing; otherwise the untrimmed draft is posted to the
      selected group. */
  function SendMessage(draft: string, selectedGroup: Option<string>): (a: SendAction)
    ensures a.Skip? <==> AllTrimmable(draft)
    ensures a.Post? ==> a.content == draft && a.groupId == selectedGroup
  {
    if Trim(draft) == "" then Skip else Post(draft, selectedGroup)
  }

  /** The end of `sendMessage`: a stored message (`Some`) is emitted as
      `"new message"` tagged with the selected group and the draft is
      cleared; a failed request (`None`) changes nothing. The sender's own
      message list is never touched. */
  function OnPostResult(v: View, ctx: Context, stored: Option<Message>): (r: Reaction)
    ensures r.view.messages == v.messages
    ensures stored.None? ==> r == Reaction(v, [])
    ensures stored.Some? ==> r.view == v.(draft := "")
    ensures stored.Some? ==> r.out == [NewMessage(stored.value.(group := ctx.selectedGroup))]
  {
    match stored
    case None => Reaction(v, [])
    case Some(data) => Reaction(v.(draft := ""), [NewMessage(data.(group := ctx.selectedGroup))])
  }

  // ---- typing state ----

  /** `handleTyping`: store the draft; announce typing only when not
      already typing and a group is selected; (re)schedule the stop timer. */
  function HandleTyping(v: View, ctx: Context, text: string): (r: Reaction)
    ensures r.view.draft == text && r.view.timerPending
    ensures r.view.isTyping <==> v.isTyping || ctx.selectedGroup.Some?
    ensures |r.out| <= 1
    ensures |r.out| == 1 <==> !v.isTyping && ctx.selectedGroup.Some?
    ensures |r.out| == 1 ==> r.out[0] == Typing(ctx.selectedGroup.value, ctx.me)
    ensures r.view.messages == v.messages && r.view.typingUsers == v.typingUsers
    ensures r.view.connectedUsers == v.connectedUsers
  {
    var v1 := v.(draft := text, timerPending := true);
    if !v.isTyping && ctx.selectedGroup.Some? then
      Reaction(v1.(isTyping := true), [Typing(ctx.selectedGroup.value, ctx.me)])
    else
      Reaction(v1, [])
  }

  /** The stop timer firing: announce stop typing when a group is
      selected and clear the flag. With no timer scheduled nothing happens. */
  function TimerFires(v: View, ctx: Context): (r: Reaction)
    ensures !v.timerPending ==> r == Reaction(v, [])
    ensures v.timerPending ==> !r.view.isTyping && !r.view.timerPending
    ensures v.timerPending ==> r.out == (if ctx.selectedGroup.Some? then [StopTyping(ctx.selectedGroup.value, ctx.me)] else [])
    ensures r.view.draft == v.draft
    ensures r.view.messages == v.messages && r.view.connectedUsers == v.connectedUsers
    ensures r.view.typingUsers == v.typingUsers
  {
    if !v.timerPending then Reaction(v, [])
    else
      var v1 := v.(isTyping := false, timerPending := false);
      if ctx.selectedGroup.Some? then Reaction(v1, [StopTyping(ctx.selectedGroup.value, ctx.me)])
      else Reaction(v1, [])
  }

  /** A burst of keystrokes with no timer firing in between. */
  function Keystrokes(v: View, ctx: Context, texts: seq<string>): Reaction
    decreases |texts|
  {
    if |texts| == 0 then Reaction(v, [])
    else
      var first := HandleTyping(v, ctx, texts[0]);
      var rest := Keystrokes(first.view, ctx, texts[1..]);
      Reaction(rest.view, first.out + rest.out)
  }

  /** However many keystrokes arrive before the timer fires, at most one
      `"typing"` is sent: exactly one when the burst starts while not typing
      with a group selected, none when already typing. */
  lemma {:induction false} BurstSendsTypingOnce(v: View, ctx: Context, texts: seq<string>)
    ensures var r := Keystrokes(v, ctx, texts);
      && |r.out| <= 1
      && (|r.out| == 1 <==> |texts| > 0 && !v.isTyping && ctx.selectedGroup.Some?)
      && (|r.out| == 1 ==> r.out[0] == Typing(ctx.selectedGroup.value, ctx.me))
      && (|texts| > 0 ==> r.view.isTyping == (v.isTyping || ctx.selectedGroup.Some?))
    decreases |texts|
  {
    if |texts| > 0 {
      var first := HandleTyping(v, ctx, texts[0]);
      BurstSendsTypingOnce(first.view, ctx, texts[1..]);
      var rest := Keystrokes(first.view, ctx, texts[1..]);
      if |first.out| == 1 {
        assert first.view.isTyping;
        assert rest.out == [];
      }
    }
  }

  /** Once the timer has fired, the next keystroke announces typing again. */
  lemma TypingAgainAfterTimer(v: View, ctx: Context, text: string)
    requires v.timerPending && ctx.selectedGroup.Some?
    ensures HandleTyping(TimerFires(v, ctx).view, ctx, text).out == [Typing(ctx.selectedGroup.value, ctx.me)]
  {
  }
}

=== FILE: EndToEnd.dfy ===
/** What happens when the chat view consumes the relay server's events:
    facts that hold only of the two sides together. */
module EndToEnd {
  import opened Js
  import opened Wire
  import Registry
  import Transport
  import Server
  import Client

  /** The events of `emits` addressed to connection `c`, handed in order to
      the listeners of a view whose open group is `groupId`. */
  function Deliver(v: Client.View, groupId: string, c: ConnId, emits: seq<Server.Emit>): (w: Client.View)
    ensures w.isTyping == v.isTyping && w.timerPending == v.timerPending && w.draft == v.draft
    ensures (forall e :: e in emits ==> c !in e.to) ==> w == v
    decreases |emits|
  {
    if |emits| == 0 then v
    else
      var e := emits[0];
      var v1 := if c in e.to then Client.Receive(v, groupId, e.name, e.payload) else v;
      Deliver(v1, groupId, c, emits[1..])
  }

  /** The client listens for `"message received"` and `"user joined"`,
      names the server never emits. */
  lemma ListenedNamesNeverSent()
    ensures MessageReceivedEvent !in Server.ServerEventNames
    ensures UserJoinedEvent !in Server.ServerEventNames
  {
  }

  /** Events carrying only server names never touch the message list. */
  lemma {:induction false} DeliverKeepsMessages(v: Client.View, groupId: string, c: ConnId, emits: seq<Server.Emit>)
    requires forall e :: e in emits ==> e.name in Server.ServerEventNames
    ensures Deliver(v, groupId, c, emits).messages == v.messages
    decreases |emits|
  {
    if |emits| > 0 {
      ListenedNamesNeverSent();
      var e := emits[0];
      assert e in emits;
      var v1 := if c in e.to then Client.Receive(v, groupId, e.name, e.payload) else v;
      assert forall x :: x in emits[1..] ==> x in emits;
      DeliverKeepsMessages(v1, groupId, c, emits[1..]);
    }
  }

  /** Relayed chat messages never reach any open chat: whatever the server
      state and whatever events it handles, every connection's message list
      is left as it was by everything the server sends, because the relay
      is emitted as `"message recieved"` and the view listens for
      `"message received"`. */
  lemma RelayNeverReachesMessageList(s: Server.State, ds: seq<Server.Delivery>, v: Client.View, groupId: string, c: ConnId)
    ensures Deliver(v, groupId, c, Server.Run(s, ds).emits).messages == v.messages
  {
    Server.RunEmitsServerNames(s, ds);
    DeliverKeepsMessages(v, groupId, c, Server.Run(s, ds).emits);
  }

  /** The `"user left"` sent on an explicit leave carries the user's `id`
      property, while the view removes by `_id`. For a user object without
      `id` the argument is `undefined`, which arrives as `null` and removes
      nobody: whatever the view listed, the leaver stays listed. */
  lemma LeaveNoticeRemovesNobody(s: Server.State, sock: Server.Socket, g: Room, w: Client.View, groupId: string)
    requires Server.EntryOf(s, sock.id).Some?
    requires IdOf(sock.user).None?
    ensures var e := Server.OnLeaveRoom(s, sock, g).emits[0];
      && e.name == UserLeftEvent
      && Client.Receive(w, groupId, e.name, e.payload).connectedUsers == w.connectedUsers
  {
    Client.UserLeftNullRemovesNobody(w.connectedUsers);
  }

  /** The `"user left"` sent on disconnect carries `_id`: when the user has
      one, the view drops the leaver, and everyone sharing that `_id`. */
  lemma DisconnectNoticeRemovesLeaver(s: Server.State, sock: Server.Socket, w: Client.View, groupId: string)
    requires Server.EntryOf(s, sock.id).Some?
    requires DbIdOf(sock.user).Some?
    ensures var e := Server.OnDisconnect(s, sock).emits[0];
      && e.name == UserLeftEvent
      && sock.user !in Client.Receive(w, groupId, e.name, e.payload).connectedUsers
  {
  }

  /** A user without `_id` sends `undefined` on disconnect, which arrives as
      `null`: the view removes nobody, so the leaver stays listed. */
  lemma DisconnectWithoutIdRemovesNobody(s: Server.State, sock: Server.Socket, w: Client.View, groupId: string)
    requires Server.EntryOf(s, sock.id).Some?
    requires DbIdOf(sock.user).None?
    ensures var e := Server.OnDisconnect(s, sock).emits[0];
      && e.name == UserLeftEvent
      && Client.Receive(w, groupId, e.name, e.payload).connectedUsers == w.connectedUsers
  {
    Client.UserLeftNullRemovesNobody(w.connectedUsers);
  }

  /** A keystroke in one view, relayed by the server, makes the typist's
      name appear in every other view of the room. */
  lemma TypingReachesRoom(v: Client.View, ctx: Client.Context, text: string,
                          s: Server.State, sender: Server.Socket, other: ConnId,
                          w: Client.View, otherMe: Option<string>)
    requires !v.isTyping && ctx.selectedGroup.Some?
    requires other != sender.id && other in Transport.Members(s.rooms, ctx.selectedGroup.value)
    requires ctx.me != otherMe
    ensures var req := Client.HandleTyping(v, ctx, text).out[0];
      var step := Server.Handle(s, sender, Server.Request(req));
      var w' := Deliver(w, ctx.selectedGroup.value, other, step.emits);
      && step.state == s
      && ctx.me in w'.typingUsers
      && Client.TypingIndicator(w'.typingUsers, otherMe).Some?
  {
    var req := Client.HandleTyping(v, ctx, text).out[0];
    var step := Server.Handle(s, sender, Server.Request(req));
    var w1 := Client.Receive(w, ctx.selectedGroup.value, UserTypingEvent, Typist(ctx.me));
    assert Deliver(w, ctx.selectedGroup.value, other, step.emits) == Deliver(w1, ctx.selectedGroup.value, other, []);
    var k :| 0 <= k < |w1.typingUsers| && w1.typingUsers[k] == ctx.me;
  }

  /** `"stop typing"` is relayed with the handshake user's name, not the
      name the view sent with `"typing"`. When the two differ, a typing
      announcement followed by its stop leaves the sent name showing in the
      other views. */
  lemma StopTypingLeavesMismatchedName(v: Client.View, ctx: Client.Context, text: string,
                                       s: Server.State, sender: Server.Socket, other: ConnId,
                                       w: Client.View)
    requires !v.isTyping && ctx.selectedGroup.Some?
    requires other != sender.id && other in Transport.Members(s.rooms, ctx.selectedGroup.value)
    requires UsernameOf(sender.user) != ctx.me
    ensures var typed := Client.HandleTyping(v, ctx, text);
      var stopped := Client.TimerFires(typed.view, ctx);
      var s1 := Server.Handle(s, sender, Server.Request(typed.out[0]));
      var s2 := Server.Handle(s1.state, sender, Server.Request(stopped.out[0]));
      var g := ctx.selectedGroup.value;
      ctx.me in Deliver(Deliver(w, g, other, s1.emits), g, other, s2.emits).typingUsers
  {
    var g := ctx.selectedGroup.value;
    var typed := Client.HandleTyping(v, ctx, text);
    var stopped := Client.TimerFires(typed.view, ctx);
    var s1 := Server.Handle(s, sender, Server.Request(typed.out[0]));
    var s2 := Server.Handle(s1.state, sender, Server.Request(stopped.out[0]));
    var w1 := Client.Receive(w, g, UserTypingEvent, Typist(ctx.me));
    assert Deliver(w, g, other, s1.emits) == Deliver(w1, g, other, []);
    var w2 := Client.Receive(w1, g, UserStopTypingEvent, Typist(UsernameOf(sender.user)));
    assert Deliver(w1, g, other, s2.emits) == Deliver(w2, g, other, []);
  }

  /** A message the sender stored is relayed to the rest of its room and
      never back to the sender, whose own list the post leaves as it was:
      the sender does not see its message until the list is fetched again. */
  lemma PostedMessageSkipsSender(v: Client.View, ctx: Client.Context, stored: Option<Message>,
                                 s: Server.State, sock: Server.Socket, openGroup: string)
    requires stored.Some?
    ensures var post := Client.OnPostResult(v, ctx, stored);
      var sent := stored.value.(group := ctx.selectedGroup);
      var st := Server.Handle(s, sock, Server.Request(post.out[0]));
      && st.state == s
      && st.emits == [Server.Emit(MessageRecievedEvent, Relayed(sent),
                                  Transport.Members(s.rooms, stored.value.groupId) - {sock.id})]
      && sock.id !in st.emits[0].to
      && Deliver(post.view, openGroup, sock.id, st.emits).messages == v.messages
  {
  }

  /** The deliveries of the message scenario: `a` and `b` join `r1`, then
      `a` sends `m`. */
  function MessageDeliveries(a: Server.Socket, b: Server.Socket, r1: Room, m: Message): seq<Server.Delivery> {
    [Server.Delivery(a, Server.Request(JoinRoom(r1))),
     Server.Delivery(b, Server.Request(JoinRoom(r1))),
     Server.Delivery(a, Server.Request(NewMessage(m)))]
  }

  /** Running the scenario emits what its three handlers emit, in order. */
  lemma MessageRunUnfolds(a: Server.Socket, b: Server.Socket, r1: Room, m: Message)
    ensures var s1 := Server.OnJoinRoom(Server.Initial, a, r1);
      var s2 := Server.OnJoinRoom(s1.state, b, r1);
      var s3 := Server.OnNewMessage(s2.state, a, m);
      Server.Run(Server.Initial, MessageDeliveries(a, b, r1, m)).emits == s1.emits + (s2.emits + s3.emits)
  {
    var ds := MessageDeliveries(a, b, r1, m);
    var s1 := Server.OnJoinRoom(Server.Initial, a, r1);
    var s2 := Server.OnJoinRoom(s1.state, b, r1);
    Server.RunThree(Server.Initial, ds[0], ds[1], ds[2]);
    assert Server.Handle(Server.Initial, a, ds[0].event) == s1;
    assert Server.Handle(s1.state, b, ds[1].event) == s2;
  }

  /** Two connections join a room and the first sends a message: the second
      is addressed with `"message recieved"` carrying the message and the
      sender is not, yet the second view's message list stays as it was. */
  lemma MessageScenario(a: Server.Socket, b: Server.Socket, r1: Room, m: Message, w: Client.View)
    requires a.id != b.id && m.groupId == r1
    ensures var run := Server.Run(Server.Initial, MessageDeliveries(a, b, r1, m));
      && |run.emits| == 5
      && var relay := run.emits[4];
      && relay.name == MessageRecievedEvent && relay.payload == Relayed(m)
      && b.id in relay.to && a.id !in relay.to
      && Deliver(w, r1, b.id, run.emits).messages == w.messages
  {
    var s1 := Server.OnJoinRoom(Server.Initial, a, r1);
    var s2 := Server.OnJoinRoom(s1.state, b, r1);
    MessageRunUnfolds(a, b, r1, m);
    assert r1 in Transport.RoomsOf(s2.state.rooms, b.id);
    RelayNeverReachesMessageList(Server.Initial, MessageDeliveries(a, b, r1, m), w, r1, b.id);
  }

  /** Two connections join a room one after the other: the first is told
      of the second's arrival, and neither is told of its own. */
  lemma JoinScenario(a: Server.Socket, b: Server.Socket, r1: Room)
    requires a.id != b.id
    ensures var s1 := Server.OnJoinRoom(Server.Initial, a, r1);
      var s2 := Server.OnJoinRoom(s1.state, b, r1);
      && s1.emits[1].to == {}
      && s2.emits[1].to == {a.id}
      && s2.emits[1].payload.kind == UserJoinedKind
      && s2.emits[0].to == {a.id, b.id}
  {
    assert Transport.Members(Server.Initial.rooms, r1) == {};
    Server.JoinMembership(Server.Initial, a, r1);
  }

  /** After two first joins of a room, its listing names both users in
      the order they joined. */
  lemma JoinScenarioListing(a: Server.Socket, b: Server.Socket, r1: Room)
    requires a.id != b.id
    ensures var s1 := Server.OnJoinRoom(Server.Initial, a, r1);
      var s2 := Server.OnJoinRoom(s1.state, b, r1);
      s2.emits[0].payload.users == [a.user, b.user]
  {
    var s1 := Server.OnJoinRoom(Server.Initial, a, r1);
    var s2 := Server.OnJoinRoom(s1.state, b, r1);
    assert Registry.UsersIn(Server.Initial.registry, r1) == [];
    Server.FirstJoinAppends(Server.Initial, a, r1);
    assert Registry.UsersIn(s1.state.registry, r1) == [a.user];
    assert Server.EntryOf(s1.state, b.id).None?;
    Server.FirstJoinAppends(s1.state, b, r1);
    assert Registry.UsersIn(s2.state.registry, r1) == [a.user] + [b.user];
  }

  /** `a` joins `r1`, `b` joins `r2`, then `a` joins `r2`: `a` keeps its
      place in the key order, so the listing sent to `r2` names `a`'s user
      before `b`'s. */
  lemma RejoinScenarioListing(a: Server.Socket, b: Server.Socket, r1: Room, r2: Room)
    requires a.id != b.id
    ensures var s1 := Server.OnJoinRoom(Server.Initial, a, r1);
      var s2 := Server.OnJoinRoom(s1.state, b, r2);
      var s3 := Server.OnJoinRoom(s2.state, a, r2);
      s3.emits[0].payload.users == [a.user, b.user]
  {
    var s2 := Server.OnJoinRoom(Server.OnJoinRoom(Server.Initial, a, r1).state, b, r2).state;
    TwoFirstJoins(a, b, r1, r2);
    RejoinFirstOfTwo(s2, a, b.id, b.user, r2);
  }

  /** Two first joins register their connections in join order. */
  lemma TwoFirstJoins(a: Server.Socket, b: Server.Socket, r1: Room, r2: Room)
    requires a.id != b.id
    ensures var s2 := Server.OnJoinRoom(Server.OnJoinRoom(Server.Initial, a, r1).state, b, r2).state;
      && s2.registry.order == [a.id, b.id]
      && Server.EntryOf(s2, b.id) == Some(Registry.Entry(b.user, r2))
  {
    var s1 := Server.OnJoinRoom(Server.Initial, a, r1);
    assert s1.state.registry.order == [a.id] by {
      Server.JoinKeepsKeyOrder(Server.Initial, a, r1);
    }
    assert Server.EntryOf(s1.state, b.id).None? by {
      assert b.id !in s1.state.registry.order;
    }
    var s2 := Server.OnJoinRoom(s1.state, b, r2).state;
    assert s2.registry.order == [a.id] + [b.id] by {
      Server.JoinKeepsKeyOrder(s1.state, b, r2);
    }
  }

  /** The first of two registered connections joining `g`, where the second
      already waits: the listing names the first's user, then the second's. */
  lemma RejoinFirstOfTwo(s: Server.State, sock: Server.Socket, other: ConnId, u: Option<User>, g: Room)
    requires s.registry.order == [sock.id, other]
    requires Server.EntryOf(s, other) == Some(Registry.Entry(u, g))
    ensures Server.OnJoinRoom(s, sock, g).emits[0].payload.users == [sock.user, u]
  {
    var r := Server.OnJoinRoom(s, sock, g).state.registry;
    Server.JoinKeepsKeyOrder(s, sock, g);
    assert r.order == [sock.id, other];
    assert r.order[1..] == [other] && [other][1..] == [];
    assert Registry.UsersAlong([other], r.entries, g) == [u];
  }
}

=== FILE: Js.dfy ===
/** The few pieces of JavaScript value semantics the chat code relies on:
    `undefined`, template-literal interpolation, `Array.prototype.join`
    and `String.prototype.trim`. */
module Js {

  /** A value that may be `undefined`. `None` is `undefined`; equality on
      `Option<string>` is JavaScript's `===` on strings and `undefined`. */
  datatype Option<+T> = None | Some(value: T)

  /** What `${v}` inserts into a template literal: a string as itself,
      `undefined` as the word "undefined", which no caller can tell from
      the string "undefined". */
  function Template(v: Option<string>): (r: string)
    ensures v.Some? ==> r == v.value
    ensures r == "undefined" <==> v == None || v == Some("undefined")
  {
    match v
    case Some(s) => s
    case None => "undefined"
  }

  /** What `Array.prototype.join` inserts for one element: `undefined`
      elements become the empty string. */
  function JoinPiece(v: Option<string>): (r: string)
    ensures v.Some? ==> r == v.value
    ensures r == "" <==> v == None || v == Some("")
  {
    match v
    case Some(s) => s
    case None => ""
  }

  /** `xs.join(sep)`: the first piece opens the text, followed by the
      separator when more pieces follow. */
  function Join(xs: seq<Option<string>>, sep: string): (r: string)
    ensures |xs| == 0 ==> r == ""
    ensures |xs| == 1 ==> r == JoinPiece(xs[0])
    ensures |xs| > 0 ==> JoinPiece(xs[0]) <= r
    ensures |xs| > 1 ==> JoinPiece(xs[0]) + sep <= r
    decreases |xs|
  {
    if |xs| == 0 then ""
    else if |xs| == 1 then JoinPiece(xs[0])
    else
      JoinPiece(xs[0]) + sep + Join(xs[1..], sep)
  }

  /** Joining grows at the end: the separator and the last piece follow
      the join of the rest. */
  lemma {:induction false} JoinSnoc(xs: seq<Option<string>>, x: Option<string>, sep: string)
    requires |xs| > 0
    ensures Join(xs + [x], sep) == Join(xs, sep) + sep + JoinPiece(x)
    decreases |xs|
  {
    if |xs| == 1 {
      assert (xs + [x])[1..] == [x];
    } else {
      assert (xs + [x])[1..] == xs[1..] + [x];
      JoinSnoc(xs[1..], x, sep);
    }
  }

  /** The characters `String.prototype.trim` removes: WhiteSpace and
      LineTerminator of ECMA-262 (sections 12.2 and 12.3), by code point. */
  predicate IsTrimmable(c: char) {
    var n := c as int;
    || (0x09 <= n <= 0x0D)
    || n == 0x20 || n == 0xA0 || n == 0x1680
    || (0x2000 <= n <= 0x200A)
    || n == 0x2028 || n == 0x2029 || n == 0x202F || n == 0x205F
    || n == 0x3000 || n == 0xFEFF
  }

  predicate AllTrimmable(s: string) {
    forall i :: 0 <= i < |s| ==> IsTrimmable(s[i])
  }

  function TrimStart(s: string): (r: string)
    ensures |r| <= |s|
    ensures r == s[|s| - |r|..]
    ensures |r| > 0 ==> !IsTrimmable(r[0])
    ensures AllTrimmable(s[..|s| - |r|])
    decreases |s|
  {
    if |s| > 0 && IsTrimmable(s[0]) then TrimStart(s[1..]) else s
  }

  function TrimEnd(s: string): (r: string)
    ensures |r| <= |s|
    ensures r == s[..|r|]
    ensures |r| > 0 ==> !IsTrimmable(r[|r| - 1])
    ensures AllTrimmable(s[|r|..])
    decreases |s|
  {
    if |s| > 0 && IsTrimmable(s[|s| - 1]) then TrimEnd(s[..|s| - 1]) else s
  }

  /** `s.trim()`: empty exactly when every character is trimmable;
      otherwise it begins and ends with a kept character. */
  function Trim(s: string): (r: string)
    ensures r == "" <==> AllTrimmable(s)
    ensures r != "" ==> !IsTrimmable(r[0]) && !IsTrimmable(r[|r| - 1])
    ensures |r| <= |s|
  {
    var t := TrimStart(s);
    var r := TrimEnd(t);
    assert r == "" ==> AllTrimmable(s) by {
      if r == "" {
        assert t[0..] == t;
        assert s[..|s|] == s;
      }
    }
    assert r != "" ==> r[0] == t[0];
    r
  }

  /** JSON values a top-level event argument can take when it carries an
      optional string: `null` or a string. */
  datatype Nullable = Null | Str(value: string)

  /** JSON encoding of a top-level argument: `JSON.stringify([undefined])`
      is `"[null]"`, so `undefined` arrives as `null`. */
  function ToJson(v: Option<string>): (r: Nullable)
    ensures r.Null? <==> v.None?
    ensures r.Str? ==> v == Some(r.value)
    ensures forall a :: StrictEquals(a, r) <==> v.Some? && a == v
  {
    match v
    case None => Null
    case Some(x) => Str(x)
  }

  /** `a === b` for a string-or-`undefined` `a` and a string-or-`null` `b`:
      `undefined` is never `null`, so only equal strings match. */
  function StrictEquals(a: Option<string>, b: Nullable): (r: bool)
    ensures a.None? ==> !r
    ensures b.Null? ==> !r
    ensures a.Some? && b.Str? ==> (r <==> a.value == b.value)
  {
    b.Str? && a == Some(b.value)
  }
}

=== FILE: Registry.dfy ===
/** The server's `connectedUsers` registry: a JavaScript `Map` from
    connection id to the user and room it last joined. A `Map` remembers
    insertion order: `set` on a present key overwrites the value in place,
    `set` on a new key appends it, `delete` drops it. The registry is kept
    as its key order plus the key-to-entry map. */
module Registry {
  import opened Js
  import opened Wire

  /** The stored value `{ user, room }`. */
  datatype Entry = Entry(user: Option<User>, room: Room)

  datatype Store = Store(order: seq<ConnId>, entries: map<ConnId, Entry>)

  /** The key order lists each key of the map exactly once. */
  predicate Valid(r: Store) {
    && Distinct(r.order)
    && (forall c :: c in r.order ==> c in r.entries)
    && (forall c :: c in r.entries ==> c in r.order)
  }

  type Registry = r: Store | Valid(r) witness Store([], map[])

  const Empty: Registry := Store([], map[])

  /** `connectedUsers.get(c)`. */
  function Get(r: Registry, c: ConnId): (e: Option<Entry>)
    ensures e.Some? <==> c in r.order
    ensures e.Some? ==> e.value == r.entries[c]
  {
    if c in r.entries then Some(r.entries[c]) else None
  }

  /** `connectedUsers.set(c, e)`. */
  function Put(r: Registry, c: ConnId, e: Entry): (r': Registry)
    ensures Get(r', c) == Some(e)
    ensures forall d :: d != c ==> Get(r', d) == Get(r, d)
    ensures c in r.entries ==> r'.order == r.order
    ensures c !in r.entries ==> r'.order == r.order + [c]
  {
    if c in r.entries then Store(r.order, r.entries[c := e])
    else Store(r.order + [c], r.entries[c := e])
  }

  /** `s` without `c`, the rest in order. */
  function Without(s: seq<ConnId>, c: ConnId): (t: seq<ConnId>)
    ensures forall d :: d in t <==> d in s && d != c
    ensures Distinct(s) ==> Distinct(t)
    ensures c !in s ==> t == s
    decreases |s|
  {
    if |s| == 0 then []
    else if s[0] == c then Without(s[1..], c)
    else
      var rest := Without(s[1..], c);
      assert forall d :: d in s <==> d == s[0] || d in s[1..];
      assert Distinct(s) ==> Distinct(s[1..]) by {
        if Distinct(s) {
          forall i, j | 0 <= i < j < |s[1..]| ensures s[1..][i] != s[1..][j] {
            assert s[1..][i] == s[i + 1] && s[1..][j] == s[j + 1];
          }
        }
      }
      var t := [s[0]] + rest;
      assert Distinct(s) ==> Distinct(t) by {
        if Distinct(s) {
          assert s[0] !in s[1..];
          forall i, j | 0 <= i < j < |t| ensures t[i] != t[j] {
            assert t[j] == rest[j - 1];
            if i > 0 { assert t[i] == rest[i - 1]; }
          }
        }
      }
      t
  }

  /** The position of `c` in `s`, its first when it occurs more than once. */
  function IndexOf(s: seq<ConnId>, c: ConnId): (i: nat)
    requires c in s
    ensures i < |s| && s[i] == c
    decreases |s|
  {
    if s[0] == c then 0 else 1 + IndexOf(s[1..], c)
  }

  /** Along distinct keys, `Without` takes out the one occurrence of `c`
      and leaves every other key where it was. */
  lemma {:induction false} WithoutDeletesInPlace(s: seq<ConnId>, c: ConnId)
    requires Distinct(s) && c in s
    ensures Without(s, c) == s[..IndexOf(s, c)] + s[IndexOf(s, c) + 1..]
    decreases |s|
  {
    var tail := s[1..];
    assert Distinct(tail) by {
      forall i, j | 0 <= i < j < |tail| ensures tail[i] != tail[j] {
        assert tail[i] == s[i + 1] && tail[j] == s[j + 1];
      }
    }
    if s[0] == c {
      assert c !in tail;
      assert s[..0] + s[1..] == tail;
    } else {
      WithoutDeletesInPlace(tail, c);
      var i := IndexOf(tail, c);
      assert s[..i + 1] == [s[0]] + tail[..i];
      assert s[i + 2..] == tail[i + 1..];
    }
  }

  /** `connectedUsers.delete(c)`: a present key is taken out of the key
      order in place, the others keeping their order. */
  function Remove(r: Registry, c: ConnId): (r': Registry)
    ensures Get(r', c) == None
    ensures forall d :: d != c ==> Get(r', d) == Get(r, d)
    ensures c !in r.entries ==> r' == r
    ensures c in r.entries ==> r'.order == r.order[..IndexOf(r.order, c)] + r.order[IndexOf(r.order, c) + 1..]
  {
    RemoveKeepsValid(r, c);
    RemoveInPlace(r, c);
    Store(Without(r.order, c), r.entries - {c})
  }

  lemma RemoveKeepsValid(r: Registry, c: ConnId)
    ensures Valid(Store(Without(r.order, c), r.entries - {c}))
  {
    var order := Without(r.order, c);
    assert forall d :: d in order ==> d in r.entries - {c};
    assert forall d :: d in r.entries - {c} ==> d in order;
  }

  lemma RemoveInPlace(r: Registry, c: ConnId)
    ensures c in r.entries ==> Without(r.order, c) == r.order[..IndexOf(r.order, c)] + r.order[IndexOf(r.order, c) + 1..]
  {
    if c in r.entries {
      assert Valid(r) && c in r.order;
      WithoutDeletesInPlace(r.order, c);
    }
  }

  /** The users of the keys in `keys` whose entry names room `g`, in the
      order of `keys`. */
  function UsersAlong(keys: seq<ConnId>, m: map<ConnId, Entry>, g: Room): (us: seq<Option<User>>)
    ensures |us| <= |keys|
    decreases |keys|
  {
    if |keys| == 0 then []
    else
      var k := keys[0];
      (if k in m && m[k].room == g then [m[k].user] else []) + UsersAlong(keys[1..], m, g)
  }

  /** The `"users in room"` listing:
      `Array.from(connectedUsers.values()).filter(u => u.room === g).map(u => u.user)`.
      It holds one user per connection whose entry names `g`. */
  function UsersIn(r: Registry, g: Room): (us: seq<Option<User>>)
    ensures |us| == |ConnsIn(r, g)|
  {
    UsersAlongCounts(r.order, r.entries, g);
    assert (set c | c in r.order && c in r.entries && r.entries[c].room == g) == ConnsIn(r, g);
    UsersAlong(r.order, r.entries, g)
  }

  /** The connections whose entry names room `g`. */
  function ConnsIn(r: Registry, g: Room): set<ConnId> {
    set c | c in r.entries && r.entries[c].room == g
  }

  /** A user is listed along `keys` exactly when one of the keys maps it
      to room `g`. */
  lemma {:induction false} UsersAlongLists(keys: seq<ConnId>, m: map<ConnId, Entry>, g: Room, u: Option<User>)
    ensures u in UsersAlong(keys, m, g) <==> exists c :: c in keys && c in m && m[c] == Entry(u, g)
    decreases |keys|
  {
    if |keys| > 0 {
      UsersAlongLists(keys[1..], m, g, u);
      assert forall c :: c in keys <==> c == keys[0] || c in keys[1..];
    }
  }

  /** A user is listed for `g` exactly when some connection's entry pairs
      that user with `g`. */
  lemma UsersInLists(r: Registry, g: Room, u: Option<User>)
    ensures u in UsersIn(r, g) <==> exists c :: c in r.entries && r.entries[c] == Entry(u, g)
  {
    UsersAlongLists(r.order, r.entries, g, u);
  }

  /** The listing keeps key order: it distributes over concatenation. */
  lemma {:induction false} UsersAlongAppend(k1: seq<ConnId>, k2: seq<ConnId>, m: map<ConnId, Entry>, g: Room)
    ensures UsersAlong(k1 + k2, m, g) == UsersAlong(k1, m, g) + UsersAlong(k2, m, g)
    decreases |k1|
  {
    if |k1| > 0 {
      assert (k1 + k2)[1..] == k1[1..] + k2;
      UsersAlongAppend(k1[1..], k2, m, g);
    } else {
      assert k1 + k2 == k2;
    }
  }

  /** One listed user per connection: along distinct keys, the listing is
      as long as the set of those keys whose entry names `g`. */
  lemma {:induction false} UsersAlongCounts(keys: seq<ConnId>, m: map<ConnId, Entry>, g: Room)
    requires Distinct(keys)
    ensures |UsersAlong(keys, m, g)| == |set c | c in keys && c in m && m[c].room == g|
    decreases |keys|
  {
    if |keys| == 0 {
      assert forall c :: c !in keys;
    } else {
      var tail := keys[1..];
      assert Distinct(tail) by {
        forall i, j | 0 <= i < j < |tail| ensures tail[i] != tail[j] {
          assert tail[i] == keys[i + 1] && tail[j] == keys[j + 1];
        }
      }
      UsersAlongCounts(tail, m, g);
      RoomKeysCons(keys, m, g);
    }
  }

  /** The keys of room `g` along `keys` are those along its tail, plus its
      head when the head's entry names `g`. */
  lemma RoomKeysCons(keys: seq<ConnId>, m: map<ConnId, Entry>, g: Room)
    requires |keys| > 0 && Distinct(keys)
    ensures var here := set c | c in keys && c in m && m[c].room == g;
      var there := set c | c in keys[1..] && c in m && m[c].room == g;
      && keys[0] !in there
      && here == (if keys[0] in m && m[keys[0]].room == g then {keys[0]} + there else there)
  {
    assert forall c :: c in keys <==> c == keys[0] || c in keys[1..];
    assert keys[0] !in keys[1..];
  }

  /** Deleting a connection that was just added restores the registry. */
  lemma PutThenRemove(r: Registry, c: ConnId, e: Entry)
    requires c !in r.entries
    ensures Remove(Put(r, c, e), c) == r
  {
    var p := Put(r, c, e);
    WithoutAppend(r.order, [c], c);
    assert Without([c], c) == [];
    assert p.entries - {c} == r.entries;
  }

  lemma {:induction false} WithoutAppend(s1: seq<ConnId>, s2: seq<ConnId>, c: ConnId)
    ensures Without(s1 + s2, c) == Without(s1, c) + Without(s2, c)
    decreases |s1|
  {
    if |s1| > 0 {
      assert (s1 + s2)[1..] == s1[1..] + s2;
      WithoutAppend(s1[1..], s2, c);
    } else {
      assert s1 + s2 == s2;
    }
  }
}

=== FILE: Server.dfy ===
/** The relay server of backend/socket.js: one handler per socket event,
    each a pure transition from the server state to the next state plus the
    events it emits. The state is the `connectedUsers` registry and the
    transport's room membership; the handshake user a handler closes over
    travels in the `Socket` value. */
module Server {
  import opened Js
  import opened Wire
  import Registry
  import Transport

  datatype State = State(registry: Registry.Registry, rooms: Transport.Rooms)

  const Initial := State(Registry.Empty, map[])

  /** One connection as its handlers see it: `socket.id` and
      `socket.handshake.auth.user`. */
  datatype Socket = Socket(id: ConnId, user: Option<User>)

  /** An emitted event and the connections it is addressed to. */
  datatype Emit = Emit(name: string, payload: Payload, to: set<ConnId>)

  /** A handler's outcome: the next state and the events emitted, in order. */
  datatype Step = Step(state: State, emits: seq<Emit>)

  /** What a connection can deliver to its handlers. */
  datatype Event = Request(request: Request) | Disconnect

  /** The registry entry of `c`, if any. */
  function EntryOf(s: State, c: ConnId): Option<Registry.Entry> {
    Registry.Get(s.registry, c)
  }

  /** Every registry entry names a room its connection is still in at the
      transport level. */
  predicate Consistent(s: State) {
    forall c :: c in s.registry.entries ==> s.registry.entries[c].room in Transport.RoomsOf(s.rooms, c)
  }

  /** `"join room"`: join at the transport level, record `(user, g)` for the
      connection (overwriting any earlier entry, but keeping earlier
      transport rooms), send the room's user list to the whole room, and
      announce the joiner to everyone else in it. */
  function OnJoinRoom(s: State, sock: Socket, g: Room): (st: Step)
    ensures EntryOf(st.state, sock.id) == Some(Registry.Entry(sock.user, g))
    ensures forall d :: d != sock.id ==> EntryOf(st.state, d) == EntryOf(s, d)
    ensures Transport.RoomsOf(st.state.rooms, sock.id) == Transport.RoomsOf(s.rooms, sock.id) + {g}
    ensures forall d :: d != sock.id ==> Transport.RoomsOf(st.state.rooms, d) == Transport.RoomsOf(s.rooms, d)
    ensures |st.emits| == 2
    ensures st.emits[0].name == UsersInRoomEvent
    ensures st.emits[0].payload == Users(Registry.UsersIn(st.state.registry, g))
    ensures sock.user in st.emits[0].payload.users
    ensures st.emits[0].to == Transport.Members(s.rooms, g) + {sock.id}
    ensures st.emits[1].name == NotificationEvent
    ensures st.emits[1].payload == Notice(UserJoinedKind, Template(UsernameOf(sock.user)) + " has joined", sock.user)
    ensures st.emits[1].to == st.emits[0].to - {sock.id}
    ensures |st.emits[1].to| == |st.emits[0].to| - 1
  {
    var rooms := Transport.Join(s.rooms, sock.id, g);
    var registry := Registry.Put(s.registry, sock.id, Registry.Entry(sock.user, g));
    var users := Registry.UsersIn(registry, g);
    Registry.UsersInLists(registry, g, sock.user);
    Transport.JoinMembers(s.rooms, sock.id, g, g);
    Step(State(registry, rooms), [
      Emit(UsersInRoomEvent, Users(users), Transport.Members(rooms, g)),
      Emit(NotificationEvent,
           Notice(UserJoinedKind, Template(UsernameOf(sock.user)) + " has joined", sock.user),
           Transport.Others(rooms, sock.id, g))
    ])
  }

  /** A join is a `Map.set`: a connection that already has an entry keeps
      its place in the key order, whatever room it named, and a new one
      goes last. So the room's listing follows first-join order. */
  lemma JoinKeepsKeyOrder(s: State, sock: Socket, g: Room)
    ensures var order := OnJoinRoom(s, sock, g).state.registry.order;
      order == (if EntryOf(s, sock.id).Some? then s.registry.order else s.registry.order + [sock.id])
  {
  }

  /** After a join, the room's members are those before plus the joiner. */
  lemma JoinMembership(s: State, sock: Socket, g: Room)
    ensures Transport.Members(OnJoinRoom(s, sock, g).state.rooms, g) == Transport.Members(s.rooms, g) + {sock.id}
  {
    Transport.JoinMembers(s.rooms, sock.id, g, g);
  }

  /** `"leave room"`: leave `g` at the transport level; if the connection
      has an entry, delete it, whatever room it names, and tell the rest of
      `g` with the user's `id` property. */
  function OnLeaveRoom(s: State, sock: Socket, g: Room): (st: Step)
    ensures Transport.RoomsOf(st.state.rooms, sock.id) == Transport.RoomsOf(s.rooms, sock.id) - {g}
    ensures forall d :: d != sock.id ==> Transport.RoomsOf(st.state.rooms, d) == Transport.RoomsOf(s.rooms, d)
    ensures EntryOf(st.state, sock.id) == None
    ensures forall d :: d != sock.id ==> EntryOf(st.state, d) == EntryOf(s, d)
    ensures EntryOf(s, sock.id).Some? ==>
      st.emits == [Emit(UserLeftEvent, UserId(IdOf(sock.user)), Transport.Members(s.rooms, g) - {sock.id})]
    ensures sock.id in s.registry.entries ==>
      var i := Registry.IndexOf(s.registry.order, sock.id);
      st.state.registry.order == s.registry.order[..i] + s.registry.order[i + 1..]
    ensures EntryOf(s, sock.id).None? ==> st.emits == [] && st.state.registry == s.registry
  {
    var rooms := Transport.Leave(s.rooms, sock.id, g);
    Transport.LeaveMembers(s.rooms, sock.id, g);
    assert Transport.Others(rooms, sock.id, g) == Transport.Members(s.rooms, g) - {sock.id};
    if sock.id in s.registry.entries then
      Step(State(Registry.Remove(s.registry, sock.id), rooms),
           [Emit(UserLeftEvent, UserId(IdOf(sock.user)), Transport.Others(rooms, sock.id, g))])
    else
      Step(State(s.registry, rooms), [])
  }

  /** `"new message"`: relay the payload unchanged, under the server's
      spelling of the event name, to the rest of the message's room. */
  function OnNewMessage(s: State, sock: Socket, m: Message): (st: Step)
    ensures st.state == s
    ensures st.emits == [Emit(MessageRecievedEvent, Relayed(m), Transport.Members(s.rooms, m.groupId) - {sock.id})]
  {
    Step(s, [Emit(MessageRecievedEvent, Relayed(m), Transport.Others(s.rooms, sock.id, m.groupId))])
  }

  /** `"typing"`: relay the payload's username to the rest of the room. */
  function OnTyping(s: State, sock: Socket, g: Room, username: Option<string>): (st: Step)
    ensures st.state == s
    ensures st.emits == [Emit(UserTypingEvent, Typist(username), Transport.Members(s.rooms, g) - {sock.id})]
  {
    Step(s, [Emit(UserTypingEvent, Typist(username), Transport.Others(s.rooms, sock.id, g))])
  }

  /** `"stop typing"`: tell the rest of the room that the handshake user
      stopped typing; a username in the payload is not read. */
  function OnStopTyping(s: State, sock: Socket, g: Room, username: Option<string>): (st: Step)
    ensures st.state == s
    ensures st.emits == [Emit(UserStopTypingEvent, Typist(UsernameOf(sock.user)), Transport.Members(s.rooms, g) - {sock.id})]
  {
    Step(s, [Emit(UserStopTypingEvent, Typist(UsernameOf(sock.user)), Transport.Others(s.rooms, sock.id, g))])
  }

  /** `"disconnect"`: if the connection has an entry, tell the rest of the
      entry's room with the user's `_id` property and delete the entry. The
      transport drops the connection from every room. */
  function OnDisconnect(s: State, sock: Socket): (st: Step)
    ensures EntryOf(st.state, sock.id) == None
    ensures forall d :: d != sock.id ==> EntryOf(st.state, d) == EntryOf(s, d)
    ensures Transport.RoomsOf(st.state.rooms, sock.id) == {}
    ensures forall d :: d != sock.id ==> Transport.RoomsOf(st.state.rooms, d) == Transport.RoomsOf(s.rooms, d)
    ensures EntryOf(s, sock.id).Some? ==>
      st.emits == [Emit(UserLeftEvent, UserId(DbIdOf(sock.user)),
                        Transport.Members(s.rooms, EntryOf(s, sock.id).value.room) - {sock.id})]
    ensures sock.id in s.registry.entries ==>
      var i := Registry.IndexOf(s.registry.order, sock.id);
      st.state.registry.order == s.registry.order[..i] + s.registry.order[i + 1..]
    ensures EntryOf(s, sock.id).None? ==> st.emits == [] && st.state.registry == s.registry
  {
    var rooms := Transport.Drop(s.rooms, sock.id);
    if sock.id in s.registry.entries then
      var data := s.registry.entries[sock.id];
      Step(State(Registry.Remove(s.registry, sock.id), rooms),
           [Emit(UserLeftEvent, UserId(DbIdOf(sock.user)), Transport.Others(s.rooms, sock.id, data.room))])
    else
      Step(State(s.registry, rooms), [])
  }

  /** The handler table of `io.on("connection")`. */
  function Handle(s: State, sock: Socket, ev: Event): (st: Step)
    ensures |st.emits| <= 2
    ensures forall e :: e in st.emits ==> e.name in ServerEventNames
  {
    match ev
    case Disconnect => OnDisconnect(s, sock)
    case Request(JoinRoom(g)) =>
      var st := OnJoinRoom(s, sock, g);
      assert st.emits == [st.emits[0], st.emits[1]];
      st
    case Request(LeaveRoom(g)) => OnLeaveRoom(s, sock, g)
    case Request(NewMessage(m)) => OnNewMessage(s, sock, m)
    case Request(Typing(g, name)) => OnTyping(s, sock, g, name)
    case Request(StopTyping(g, name)) => OnStopTyping(s, sock, g, name)
  }

  /** One event as the event loop delivers it: from a connection, to its handler. */
  datatype Delivery = Delivery(sock: Socket, event: Event)

  /** Handlers run to completion one at a time, in arrival order. */
  function Run(s: State, ds: seq<Delivery>): (st: Step)
    ensures |st.emits| <= 2 * |ds|
    ensures |ds| == 0 ==> st == Step(s, [])
    decreases |ds|
  {
    if |ds| == 0 then Step(s, [])
    else
      var first := Handle(s, ds[0].sock, ds[0].event);
      var rest := Run(first.state, ds[1..]);
      Step(rest.state, first.emits + rest.emits)
  }

  /** Running three deliveries emits what their handlers emit, in order,
      each handler seeing the state the previous one left. */
  lemma RunThree(s: State, d1: Delivery, d2: Delivery, d3: Delivery)
    ensures var h1 := Handle(s, d1.sock, d1.event);
      var h2 := Handle(h1.state, d2.sock, d2.event);
      var h3 := Handle(h2.state, d3.sock, d3.event);
      Run(s, [d1, d2, d3]).emits == h1.emits + (h2.emits + h3.emits)
  {
    var h1 := Handle(s, d1.sock, d1.event);
    var h2 := Handle(h1.state, d2.sock, d2.event);
    var h3 := Handle(h2.state, d3.sock, d3.event);
    assert [d3][1..] == [];
    assert Run(h2.state, [d3]).emits == h3.emits + [];
    assert [d2, d3][1..] == [d3];
    assert Run(h1.state, [d2, d3]).emits == h2.emits + h3.emits;
    assert [d1, d2, d3][1..] == [d2, d3];
  }

  /** Every handler keeps the registry's entries inside the transport's
      rooms: a join sets both, a leave drops the transport room and the
      entry together, a disconnect drops both. */
  lemma HandlePreservesConsistent(s: State, sock: Socket, ev: Event)
    requires Consistent(s)
    ensures Consistent(Handle(s, sock, ev).state)
  {
  }

  lemma {:induction false} RunPreservesConsistent(s: State, ds: seq<Delivery>)
    requires Consistent(s)
    ensures Consistent(Run(s, ds).state)
    decreases |ds|
  {
    if |ds| > 0 {
      HandlePreservesConsistent(s, ds[0].sock, ds[0].event);
      RunPreservesConsistent(Handle(s, ds[0].sock, ds[0].event).state, ds[1..]);
    }
  }

  /** The server starts consistent, so every reachable state is. */
  lemma RunFromInitialConsistent(ds: seq<Delivery>)
    ensures Consistent(Run(Initial, ds).state)
  {
    assert Consistent(Initial);
    RunPreservesConsistent(Initial, ds);
  }

  /** In a consistent state everyone listed for a room also receives the
      room's broadcasts. */
  lemma ListedConnectionsAreMembers(s: State, g: Room)
    requires Consistent(s)
    ensures Registry.ConnsIn(s.registry, g) <= Transport.Members(s.rooms, g)
  {
  }

  /** The joiner is listed once per connection: the `"users in room"` list
      holds one user per connection whose entry names the room, and the
      joiner's connection is one of them. */
  lemma JoinListsOnePerConnection(s: State, sock: Socket, g: Room)
    ensures var r := OnJoinRoom(s, sock, g).state.registry;
      && |Registry.UsersIn(r, g)| == |Registry.ConnsIn(r, g)|
      && sock.id in Registry.ConnsIn(r, g)
  {
  }

  /** A first join appends the joiner at the end of the room's list: the
      users already listed keep their order. */
  lemma FirstJoinAppends(s: State, sock: Socket, g: Room)
    requires EntryOf(s, sock.id).None?
    ensures Registry.UsersIn(OnJoinRoom(s, sock, g).state.registry, g) == Registry.UsersIn(s.registry, g) + [sock.user]
  {
    var r := OnJoinRoom(s, sock, g).state.registry;
    assert r.order == s.registry.order + [sock.id];
    Registry.UsersAlongAppend(s.registry.order, [sock.id], r.entries, g);
    UsersAlongFrame(s.registry.order, s.registry.entries, r.entries, g);
    assert [sock.id][1..] == [];
  }

  /** The listing only reads the entries of the keys it walks. */
  lemma {:induction false} UsersAlongFrame(keys: seq<ConnId>, m1: map<ConnId, Registry.Entry>, m2: map<ConnId, Registry.Entry>, g: Room)
    requires forall k :: k in keys ==> (k in m1 <==> k in m2) && (k in m1 ==> m1[k] == m2[k])
    ensures Registry.UsersAlong(keys, m1, g) == Registry.UsersAlong(keys, m2, g)
    decreases |keys|
  {
    if |keys| > 0 {
      assert keys[0] in keys;
      assert forall k :: k in keys[1..] ==> k in keys;
      UsersAlongFrame(keys[1..], m1, m2, g);
    }
  }

  /** After `"leave room"` the connection is neither listed for the room
      nor reached by its broadcasts. */
  lemma LeaveRemovesFromRoom(s: State, sock: Socket, g: Room)
    ensures sock.id !in Registry.ConnsIn(OnLeaveRoom(s, sock, g).state.registry, g)
    ensures sock.id !in Transport.Members(OnLeaveRoom(s, sock, g).state.rooms, g)
  {
    assert EntryOf(OnLeaveRoom(s, sock, g).state, sock.id) == None;
  }

  /** Joining a second room without leaving the first keeps the connection
      in the first room at the transport level while the registry lists it
      only for the second: it still receives the first room's broadcasts
      but is missing from its user list. */
  lemma JoinSecondRoomKeepsFirst(s: State, sock: Socket, g1: Room, g2: Room)
    requires g1 != g2
    ensures var s2 := OnJoinRoom(OnJoinRoom(s, sock, g1).state, sock, g2).state;
      && sock.id in Transport.Members(s2.rooms, g1)
      && sock.id in Transport.Members(s2.rooms, g2)
      && sock.id !in Registry.ConnsIn(s2.registry, g1)
      && EntryOf(s2, sock.id) == Some(Registry.Entry(sock.user, g2))
  {
    var s1 := OnJoinRoom(s, sock, g1).state;
    var s2 := OnJoinRoom(s1, sock, g2).state;
    assert EntryOf(s2, sock.id) == Some(Registry.Entry(sock.user, g2));
  }

  /** After a join, a disconnect announces the departure once, to the rest
      of the joined room, with the `_id` property; a second disconnect
      emits nothing and changes nothing. */
  lemma DisconnectAfterJoin(s: State, sock: Socket, g: Room)
    ensures var s1 := OnJoinRoom(s, sock, g).state;
      var d1 := OnDisconnect(s1, sock);
      var d2 := OnDisconnect(d1.state, sock);
      && d1.emits == [Emit(UserLeftEvent, UserId(DbIdOf(sock.user)), Transport.Members(s1.rooms, g) - {sock.id})]
      && d2.emits == []
      && d2.state == d1.state
  {
    var s1 := OnJoinRoom(s, sock, g).state;
    var d1 := OnDisconnect(s1, sock);
    assert EntryOf(d1.state, sock.id) == None;
    assert sock.id !in d1.state.rooms;
  }

  /** A second disconnect of the same connection is a no-op. */
  lemma DisconnectIdempotent(s: State, sock: Socket)
    ensures var d1 := OnDisconnect(s, sock);
      var d2 := OnDisconnect(d1.state, sock);
      d2.emits == [] && d2.state == d1.state
  {
    var d1 := OnDisconnect(s, sock);
    assert EntryOf(d1.state, sock.id) == None;
    assert sock.id !in d1.state.rooms;
  }

  /** Leaving a room other than the one recorded still deletes the entry,
      so a later disconnect tells nobody, although the connection is still
      in the recorded room at the transport level until then. */
  lemma LeaveOtherRoomSilencesDisconnect(s: State, sock: Socket, g1: Room, g2: Room)
    requires g1 != g2
    ensures var s1 := OnJoinRoom(s, sock, g1).state;
      var l := OnLeaveRoom(s1, sock, g2);
      && sock.id in Transport.Members(l.state.rooms, g1)
      && OnDisconnect(l.state, sock).emits == []
  {
    var s1 := OnJoinRoom(s, sock, g1).state;
    var l := OnLeaveRoom(s1, sock, g2);
    assert EntryOf(l.state, sock.id) == None;
  }

  /** A join followed by a leave of the same room restores the registry
      when the connection had no entry before. */
  lemma JoinThenLeaveRestoresRegistry(s: State, sock: Socket, g: Room)
    requires EntryOf(s, sock.id).None?
    ensures OnLeaveRoom(OnJoinRoom(s, sock, g).state, sock, g).state.registry == s.registry
  {
    Registry.PutThenRemove(s.registry, sock.id, Registry.Entry(sock.user, g));
  }

  /** The names of every event the server can emit. */
  const ServerEventNames := {UsersInRoomEvent, NotificationEvent, UserLeftEvent,
                             MessageRecievedEvent, UserTypingEvent, UserStopTypingEvent}

  /** Whatever the state and the events, every emitted event carries one
      of the server's six names. */
  lemma {:induction false} RunEmitsServerNames(s: State, ds: seq<Delivery>)
    ensures forall e :: e in Run(s, ds).emits ==> e.name in ServerEventNames
    decreases |ds|
  {
    if |ds| > 0 {
      var first := Handle(s, ds[0].sock, ds[0].event);
      var rest := Run(first.state, ds[1..]);
      RunEmitsServerNames(first.state, ds[1..]);
      assert Run(s, ds).emits == first.emits + rest.emits;
    }
  }
}

=== FILE: Transport.dfy ===
/** Room membership as the Socket.IO transport keeps it, apart from the
    registry: `socket.join` and `socket.leave` add and drop rooms of one
    connection, and a broadcast reaches the connections whose room set
    holds the target room. */
module Transport {
  import opened Wire

  /** The rooms each connection has joined. */
  type Rooms = map<ConnId, set<Room>>

  function RoomsOf(t: Rooms, c: ConnId): set<Room> {
    if c in t then t[c] else {}
  }

  /** The connections in room `g`: the recipients of `io.in(g).emit`. */
  function Members(t: Rooms, g: Room): (m: set<ConnId>)
    ensures forall c :: c in m <==> g in RoomsOf(t, c)
  {
    set c | c in t && g in t[c]
  }

  /** The recipients of `socket.to(g).emit` sent from connection `c`. */
  function Others(t: Rooms, c: ConnId, g: Room): (m: set<ConnId>)
    ensures c !in m
    ensures forall d :: d != c ==> (d in m <==> g in RoomsOf(t, d))
  {
    Members(t, g) - {c}
  }

  /** `socket.join(g)` for connection `c`. */
  function Join(t: Rooms, c: ConnId, g: Room): (t': Rooms)
    ensures RoomsOf(t', c) == RoomsOf(t, c) + {g}
    ensures forall d :: d != c ==> RoomsOf(t', d) == RoomsOf(t, d)
  {
    t[c := RoomsOf(t, c) + {g}]
  }

  /** `socket.leave(g)` for connection `c`. */
  function Leave(t: Rooms, c: ConnId, g: Room): (t': Rooms)
    ensures RoomsOf(t', c) == RoomsOf(t, c) - {g}
    ensures forall d :: d != c ==> RoomsOf(t', d) == RoomsOf(t, d)
  {
    if c in t then t[c := t[c] - {g}] else t
  }

  /** The transport's own cleanup of a closed connection: it leaves every room. */
  function Drop(t: Rooms, c: ConnId): (t': Rooms)
    ensures RoomsOf(t', c) == {}
    ensures forall d :: d != c ==> RoomsOf(t', d) == RoomsOf(t, d)
  {
    t - {c}
  }

  /** Joining adds exactly the joiner to the room and leaves every other
      room's membership as it was. */
  lemma JoinMembers(t: Rooms, c: ConnId, g: Room, h: Room)
    ensures Members(Join(t, c, g), g) == Members(t, g) + {c}
    ensures h != g ==> Members(Join(t, c, g), h) == Members(t, h)
  {
    assert forall d :: d in Members(Join(t, c, g), g) <==> d in Members(t, g) + {c};
    if h != g {
      assert forall d :: d in Members(Join(t, c, g), h) <==> d in Members(t, h);
    }
  }

  /** Leaving a room takes exactly the leaver out of it. */
  lemma LeaveMembers(t: Rooms, c: ConnId, g: Room)
    ensures Members(Leave(t, c, g), g) == Members(t, g) - {c}
  {
    assert forall d :: d in Members(Leave(t, c, g), g) <==> d in Members(t, g) - {c};
  }

  /** A broadcast that excludes its sender reaches one connection fewer
      than the whole room when the sender is in the room, and the whole
      room otherwise. */
  lemma OthersCount(t: Rooms, c: ConnId, g: Room)
    ensures c in Members(t, g) ==> |Others(t, c, g)| == |Members(t, g)| - 1
    ensures c !in Members(t, g) ==> Others(t, c, g) == Members(t, g)
  {
  }
}

=== FILE: Wire.dfy ===
/** The values exchanged between the chat client and the relay server:
    the user object from the connection handshake, chat messages, the
    client's requests and the server's event payloads, and the event names
    each side uses. */
module Wire {
  import opened Js

  /** No element occurs twice: the keys of a `Map`, the members of a `Set`. */
  predicate Distinct<T(==)>(s: seq<T>) {
    forall i, j :: 0 <= i < j < |s| ==> s[i] != s[j]
  }

  /** A transport-assigned connection id (`socket.id`). */
  type ConnId = string

  /** A room id; the client uses a group's `_id` as its room. */
  type Room = string

  /** The user object a client sends in its handshake. `id` and `dbId` are
      the `id` and `_id` properties; either may be undefined. */
  datatype User = User(id: Option<string>, dbId: Option<string>, username: Option<string>)

  /** `user?.username`, `user?.id` and `user?._id` on a possibly undefined user. */
  function UsernameOf(u: Option<User>): Option<string> {
    if u.Some? then u.value.username else None
  }

  function IdOf(u: Option<User>): Option<string> {
    if u.Some? then u.value.id else None
  }

  function DbIdOf(u: Option<User>): Option<string> {
    if u.Some? then u.value.dbId else None
  }

  /** A persisted chat message as relayed: the server routes it by
      `groupId`, the client files it by `group`; the other persisted
      fields travel untouched and are summarised by `content`. */
  datatype Message = Message(content: string, groupId: Room, group: Option<string>)

  /** Events a client emits to the server, one per `socket.on` handler. */
  datatype Request =
    | JoinRoom(room: Room)
    | LeaveRoom(room: Room)
    | NewMessage(message: Message)
    | Typing(room: Room, username: Option<string>)
    | StopTyping(room: Room, username: Option<string>)

  /** Payloads of the events the server emits (and the client expects). */
  datatype Payload =
    | Users(users: seq<Option<User>>)
    | Notice(kind: string, text: string, user: Option<User>)
    | UserId(userId: Option<string>)
    | Relayed(message: Message)
    | Typist(username: Option<string>)
    | OneUser(user: Option<User>)

  // Event names emitted by the server.
  const UsersInRoomEvent := "users in room"
  const NotificationEvent := "notification"
  const UserLeftEvent := "user left"
  /** The relay's event name, spelled as the server spells it. */
  const MessageRecievedEvent := "message recieved"
  const UserTypingEvent := "user typing"
  const UserStopTypingEvent := "user stop typing"

  // Event names only the client uses.
  const MessageReceivedEvent := "message received"
  const UserJoinedEvent := "user joined"

  const UserJoinedKind := "USER_JOINED"
}
